=== FILE: README.md ===
# promproxy request validation, modelled in Dafny

promproxy is a reverse proxy in front of a Prometheus-compatible backend. It
intercepts instant and range query calls. It parses the PromQL expression and
runs it through a chain of validators:

- the label validator checks allowed `space` label values;
- the time validator checks a two-hour lookback;
- the function validator caps `increase` and `*_over_time` functions at 24 hours;
- the range validator bounds the span of a range query by its step.

On the four query paths, a request with a non-empty `query` parameter is
forwarded to the backend only if it passes all of them, and one without is
forwarded unvalidated. Every other path except `/health` and `/debug/parse`
is forwarded without validation, whatever its parameters.

This project models that validation core as pure functions over an immutable
expression tree:

- `PromQL` (`promql.dfy`): the parsed expression tree with the node kinds the
  server's tree printer distinguishes, and `Inspect`, a depth-first pre-order
  traversal that stands in for the parser library's traversal. Children are
  visited in the order the tree printer recurses.
- `Context` (`context.dfy`): the `RequestContext` record, and `Env`. `Env`
  carries the collaborators the core calls but does not implement. These are
  the clock (`now`, an instant in nanoseconds) and the PromQL parser, the
  time-parameter parser and Go's duration parser, each of the three as a
  `string -> Option<_>` function. The sum type
  `ValidationError` holds every validator error.
- `LabelValidate`, `TimeValidate`, `FunctionValidate`, `RangeValidate`: the
  four validators, one module per source file.
- `Middleware` (`middleware.dfy`): the one-operation validator interface, as a
  datatype of the four validators and a dispatching `Process`.
- `Proxy` (`proxy.dfy`): validator registration, the first-failure-wins chain,
  building the request context, the query handler's decision between
  rejecting (400) and forwarding, and the backend target URL.
- `Strings`, `Durations`, `Wrappers`: Go's `strings` helpers, `time`
  duration units in nanoseconds, and `Option`/`Outcome`/`Result`.

Durations and instants are integers of nanoseconds.

Some edge cases of the code are kept as written and stated as lemmas:

- `!=`/`!~` `space` matchers record nothing.
- A regex value such as `a|` has an empty alternative.
- A checked function whose first argument is not a range vector passes.
- A negative span passes.
- The comparisons at the 24-hour, two-hour and span caps are strict.
- The label validator recognises a missing `space` label by the recorded value
  `<missing>`. So a real `space="<missing>"` matcher is reported as a missing
  label (`LabelValidate.SentinelValueReportedMissing`).

The model follows the code in these edge cases, where the code's behaviour may
surprise:

- The function validator passes a checked call whose first argument is not a
  matrix selector. It does not report it.
- The allowed spaces are a list searched with `slices.Contains`, not a set.
- Validators do not use the traversal's path from the root.

## Model

| member | source | states |
|---|---|---|
| `Strings.TrimPrefix` | server/proxy.go:110 | with the prefix present, the prefix followed by the result is the input; otherwise the input is unchanged |
| `Strings.Split` | middleware/label_validate.go:50 | there is always at least one piece, and no piece contains the separator; the full round trip is stated by `Strings.JoinSplit` |
| `Strings.Contains` | server/proxy.go:111 | no contract of its own; stated by `Strings.ContainsIffOccurs` |
| `Strings.ContainsIffOccurs` | server/proxy.go:111 | substring search answers true exactly when the pattern occurs at some index |
| `Strings.JoinSplit` | middleware/label_validate.go:50 | splitting a regex value on the bar character loses nothing: joining the pieces gives the value back |
| `Strings.SplitJoin` | middleware/label_validate.go:50 | splitting a join of bar-free pieces gives back exactly those pieces |
| `Strings.SplitTrailingSeparator` | middleware/label_validate.go:50 | a value ending in a bar has an empty last alternative |
| `PromQL.Children` | server/proxy.go:245-307 | each node's children, in the printer's recursion order, are proper parts of the node |
| `PromQL.Inspect` | middleware/label_validate.go:36 | the traversal visits the root first |
| `PromQL.InspectPreOrder` | server/proxy.go:245-307 | the traversal is pre-order: a node, then each child's full traversal, children left to right (aggregate expr before param, LHS before RHS) |
| `PromQL.InspectReachable` | middleware/label_validate.go:36-37 | a node is visited exactly when it is reachable from the root, so nested selectors are never skipped |
| `PromQL.InspectAllReachable` | middleware/function_validate.go:25 | a node is visited by the traversal of a list of children exactly when it is reachable from one of them |
| `LabelValidate.AllAllowed` | middleware/label_validate.go:51-57 | the early-exit loop over regex alternatives answers true exactly when every alternative is allowed |
| `LabelValidate.MatcherRecord` | middleware/label_validate.go:39-62 | only `space` matchers of kind `=` or `=~` record; the record carries the matcher's value and operator, and is valid iff an `=` value is in the allowed list or every bar-separated piece of an `=~` value is |
| `LabelValidate.MatcherRecordCollected` | middleware/label_validate.go:39-62 | every matcher's record is among the records of its selector |
| `LabelValidate.DisallowedMatcherFails` | middleware/label_validate.go:36-87 | in any query, a reachable selector whose `=` `space` value is not allowed, or whose `=~` value has a piece that is not allowed, makes the validator fail |
| `LabelValidate.MatcherRecords` | middleware/label_validate.go:39-64 | no contract of its own; stated by `LabelValidate.MatcherRecordCollected` and `NegatedSpaceRecordsNothing` |
| `LabelValidate.Records` | middleware/label_validate.go:33-74 | no contract of its own; stated by `LabelValidate.RecordsMember` |
| `LabelValidate.FoundSpaces` | middleware/label_validate.go:33-74 | no contract of its own; stated by `LabelValidate.FoundSpacesReachable` and `PassIff` |
| `LabelValidate.Offending` | middleware/label_validate.go:80-86 | no contract of its own; stated by `LabelValidate.FirstOffender` and `PassIff` |
| `LabelValidate.Reported` | middleware/label_validate.go:80-86 | no contract of its own; stated by `LabelValidate.FirstOffender` and `ValidateSpaceLabel` |
| `LabelValidate.SelectorRecords` | middleware/label_validate.go:37-72 | no contract of its own; stated by `LabelValidate.SelectorRecordsEmptyIff`, `MissingSpaceFails` and `MatcherRecordCollected` |
| `LabelValidate.NodeRecords` | middleware/label_validate.go:37-72 | no contract of its own; stated by `LabelValidate.RecordsMember` and `FoundSpacesReachable` |
| `LabelValidate.SelectorRecordsEmptyIff` | middleware/label_validate.go:38-71 | a selector records nothing exactly when it has a `space` matcher and all of its `space` matchers are negative |
| `LabelValidate.FirstOffender` | middleware/label_validate.go:80-87 | no error iff no record is missing or invalid; otherwise the error of the first such record |
| `LabelValidate.ValidateSpaceLabel` | middleware/label_validate.go:26-90 | no records gives the "at least one metric" error; pass iff records exist and none offends; otherwise the first offender in pre-order is reported |
| `LabelValidate.RecordsMember` | middleware/label_validate.go:36-72 | a record is collected from visited nodes exactly when one of them contributes it |
| `LabelValidate.FoundSpacesReachable` | middleware/label_validate.go:36-37 | a record is collected for a query exactly when a reachable node contributes it |
| `LabelValidate.ReachableRecordCollected` | middleware/label_validate.go:36-72 | selectors inside matrix selectors, call args, subqueries and either binary side are inspected |
| `LabelValidate.OffenderAnywhereFails` | middleware/label_validate.go:80-87 | an offending record from any reachable selector fails the request |
| `LabelValidate.MissingSpaceFails` | middleware/label_validate.go:66-83 | a reachable selector without a `space` matcher fails the request |
| `LabelValidate.NoSelectorFails` | middleware/label_validate.go:76-78 | a query with no vector selector fails with the "at least one metric with a 'space' label" error |
| `LabelValidate.NegatedSpaceRecordsNothing` | middleware/label_validate.go:39-63 | `!=`/`!~` `space` matchers record nothing |
| `LabelValidate.OnlyNegatedSpaceFails` | middleware/label_validate.go:39-78 | if every selector restricts `space` only with `!=`/`!~`, the "at least one" error results |
| `LabelValidate.PassIff` | middleware/label_validate.go:26-90 | the validator passes iff some reachable selector records a constraint and no reachable selector records an offending one |
| `LabelValidate.SingleNodeRecords` | middleware/label_validate.go:36-72 | a query that is a lone selector has exactly that selector's records |
| `LabelValidate.EqualityAcceptedIff` | middleware/label_validate.go:43-48 | for a query that is a lone selector with one equality `space` matcher, the query is accepted iff the value is allowed (and is not the sentinel text) |
| `LabelValidate.RegexAcceptedIff` | middleware/label_validate.go:49-61 | for a query that is a lone selector with one regex `space` matcher, the query is accepted iff every bar-separated piece is allowed (and the value is not the sentinel text) |
| `LabelValidate.TrailingAlternativeRejected` | middleware/label_validate.go:49-87 | in any query, a reachable selector with a regex `space` matcher whose value ends in a bar is rejected unless the empty string is allowed |
| `LabelValidate.SentinelValueReportedMissing` | middleware/label_validate.go:80-83 | `space="<missing>"` is reported as a missing label whatever is allowed |
| `TimeValidate.TooOld` | middleware/time_validate.go:22-32 | no contract of its own; stated by `TimeValidate.ValidateTimeRange` and `RecentInstantsPass` |
| `TimeValidate.ValidateTimeRange` | middleware/time_validate.go:18-35 | pass iff neither start nor timestamp is strictly before now−2h; an old start is reported in preference to an old timestamp |
| `TimeValidate.RecentInstantsPass` | middleware/time_validate.go:22-33 | absent instants, future ones and ones exactly at now−2h pass |
| `TimeValidate.EndTimeIgnored` | middleware/time_validate.go:18-34 | the end time never changes the outcome |
| `TimeValidate.PassingStaysPassingEarlier` | middleware/time_validate.go:19-32 | a request passing at `now` also passes at any earlier `now` |
| `FunctionValidate.ValidateIncreaseFunction` | middleware/function_validate.go:51-65 | no args gives the "requires arguments" error; a first arg that is a matrix selector over more than 24h gives the range error for `increase` with that range; otherwise passes |
| `FunctionValidate.ValidateOverTimeFunction` | middleware/function_validate.go:67-81 | the same rule for an `*_over_time` function, with both errors naming that function |
| `FunctionValidate.IsChecked` | middleware/function_validate.go:27-34 | no contract of its own; stated by `FunctionValidate.UncheckedCallsPass`, `RateNotChecked` and `CallError` |
| `FunctionValidate.CollectErrors` | middleware/function_validate.go:22-42 | no contract of its own; stated by `FunctionValidate.ErrorPositions`, `ErrorsPerOffender` and `CollectErrorsAppend` |
| `FunctionValidate.ValidatePromQLFunctions` | middleware/function_validate.go:21-49 | fails iff some visited node offends; the failure carries the errors of the visited nodes in pre-order, one per offending call |
| `FunctionValidate.ErrorPositions` | middleware/function_validate.go:25-44 | the collected errors are listed by strictly increasing positions that are exactly the offending positions, and the k-th error is the error of the node at the k-th position |
| `FunctionValidate.ErrorsPerOffender` | middleware/function_validate.go:25-44 | the errors collected are as many as the offending positions, and none iff no node offends |
| `FunctionValidate.ErrorsFrom` | middleware/function_validate.go:25-42 | the same count for every suffix of the visited nodes |
| `FunctionValidate.CollectErrorsAppend` | middleware/function_validate.go:25-42 | collection does not short-circuit: two stretches of nodes give their errors concatenated |
| `FunctionValidate.BinaryErrorsLeftFirst` | middleware/function_validate.go:25-42 | errors come in traversal order: all LHS errors precede RHS errors |
| `FunctionValidate.CallError` | middleware/function_validate.go:26-39 | only a call of `increase` or an `*_over_time` function can err, and the error names that call's function |
| `FunctionValidate.UncheckedCallsPass` | middleware/function_validate.go:26-39 | a call that is neither `increase` nor named `*_over_time` never errs |
| `FunctionValidate.RateNotChecked` | middleware/function_validate.go:27-34 | `rate` is not a checked function |
| `FunctionValidate.NoArgumentsReported` | middleware/function_validate.go:51-70 | a checked call with zero args reports "requires arguments" with its name |
| `FunctionValidate.RangeLimit` | middleware/function_validate.go:57-62 | a checked call over a matrix selector errs iff its range is strictly over 24h, and the error names the call and carries that range |
| `FunctionValidate.NonMatrixFirstArgumentPasses` | middleware/function_validate.go:57-64 | a first argument that is not a matrix selector (e.g. a subquery) passes whatever its span |
| `FunctionValidate.IncreaseLikeOverTime` | middleware/function_validate.go:51-81 | `increase` is checked exactly like an `*_over_time` function named `increase` |
| `RangeValidate.MaxSpan` | middleware/range_validate.go:34-46 | a step under 1m has no cap; every cap lies between 6h and 24h |
| `RangeValidate.QuerySpan` | middleware/range_validate.go:28-31 | no contract of its own; stated by `RangeValidate.ValidateQueryRange` and `SpanBoundaries` |
| `RangeValidate.ValidateQueryRange` | middleware/range_validate.go:18-54 | non-range or empty step passes; unparsable step fails first; step under 1m fails whatever the span; otherwise pass iff span ≤ cap |
| `RangeValidate.MaxSpanMonotone` | middleware/range_validate.go:34-43 | the cap is non-decreasing in the step |
| `RangeValidate.MaxSpanTable` | middleware/range_validate.go:34-46 | the band edges 10m, 5m, 2m, 1m get 24h, 24h, 12h, 6h, and just under 1m is rejected |
| `RangeValidate.SpanBoundaries` | middleware/range_validate.go:28-51 | with step ≥ 1m, a span equal to the cap passes, a negative span passes, and a missing endpoint passes |
| `RangeValidate.SmallStepIgnoresSpan` | middleware/range_validate.go:42-45 | a step under 1m fails with the same error for every start/end |
| `Middleware.Process` | middleware/middleware.go:3-5 | running a validator fails only with an error of that validator's own kind |
| `Proxy.RegisterMiddlewares` | server/proxy.go:34-36 | registering appends: the old chain is the prefix and the added validators follow in order |
| `Proxy.FirstFailure` | server/proxy.go:38-45 | pass iff every validator passes; a failure is the result of the first failing validator, all before it passing |
| `Proxy.ProcessMiddlewares` | server/proxy.go:38-45 | the loop returns the first failure in registration order, and passes iff every validator passes (an empty chain passes) |
| `Proxy.RegisterThenProcess` | server/proxy.go:34-45 | after registering more validators, an existing failure stands and later validators do not affect it; otherwise the added ones decide |
| `Proxy.FirstFailureCons` | server/proxy.go:39-43 | a validator in front either fails the chain with its own error or defers to the rest |
| `Proxy.ProductionChain` | cmd/main.go:39-44 | no contract of its own; stated by `Proxy.ProductionOrder` |
| `Proxy.ProductionOrder` | cmd/main.go:39-45 | the production chain reports label, then time, then function, then step/span errors |
| `Proxy.QueryGet` | server/proxy.go:97-98 | an absent parameter reads as empty; a present one reads as the value of its first occurrence |
| `Proxy.TimeParam` | server/proxy.go:113-129 | a time parameter is absent when empty or unparsable, and is the parsed instant otherwise |
| `Proxy.IsRangePath` | server/proxy.go:110-111 | no contract of its own; stated by `Proxy.IsRangePathIff` |
| `Proxy.IsRangePathIff` | server/proxy.go:110-111 | `IsRange` holds iff `query_range` occurs in the path; trimming the leading `/` never matters |
| `Proxy.ParseRequestContext` | server/proxy.go:94-134 | empty query gives "missing query parameter"; unparsable gives the syntax error; otherwise a context with a non-empty query, the parsed tree, the range flag, the step, and start, end and time each present exactly when the parameter is non-empty and parses, holding the parsed instant |
| `Proxy.UnparsableTimeAbsent` | server/proxy.go:113-129 | unparsable start, end and time parameters leave the fields absent instead of failing |
| `Proxy.TargetURL` | server/proxy.go:48-51 | the target is backend ++ path, followed by `?` ++ raw query only when the raw query is non-empty |
| `Proxy.TargetURLRoundTrip` | server/proxy.go:48-51 | for a path without `?`, path and raw query can be read back from the target URL |
| `Proxy.HandleQuery` | server/proxy.go:151-171 | an empty `query` skips validation and forwards to the target URL; an unparsable query is rejected with the syntax error; every rejection is a 400 and never "missing query"; when the context builds and a validator fails, the rejection carries the first validator failure |
| `Proxy.ForwardIff` | server/proxy.go:153-167 | a request with a non-empty `query` parameter is forwarded iff its context builds and every registered validator passes |

## Left out

- Admission semaphore and cancellation (server/proxy.go:139-149): these are concurrency. Note that the handler takes its slot before validation, not just before forwarding. The 408 cancellation outcome is therefore not modelled.
- HTTP forwarding (server/proxy.go:53-79): building the outbound request, copying headers, the client call and streaming the body are I/O. So are the 500 outcome of a transport failure and the per-request log line. Only the target URL is modelled.
- Routing and startup (server/proxy.go:174-225): the proxy's own routing is left out. This covers `defaultProxyHandler`, which forwards other paths unvalidated, the mux, the `/health` and `/debug/parse` handlers, and `ListenAndServe`. Configuration loading and logging (config/config.go, cmd/main.go) are left out too; only the registration order is kept.
- The PromQL parser, `time.ParseDuration` and `time.Now` are library code. They are parameters in `Env`, and Go duration syntax is not modelled.
- `parseTimeParam` (server/proxy.go:82-92) is the proxy's own parser. `Env.parseTime` replaces it, so its float and RFC 3339 parsing are not modelled. Nor is its truncation of numeric timestamps to whole seconds.
- `printExpressionTree` output formatting (server/proxy.go:227-312) is left out. Only its case list shapes the `Expr` datatype. Its nil-child guards have no counterpart: parsed trees have no nil children except an aggregate's optional parameter, which is an `Option`.
- `RequestContext.Request` and URL query decoding are left out. The request's query parameters are given already decoded, in order.
- Error messages are variants carrying the relevant values, not formatted text. `%v` duration formatting is not modelled.
- FunctionValidate.ValidatePromQLFunctions: the failure carries the list of per-call errors rather than their messages joined by "; ", because message formatting is left out.
- RangeValidate.ValidateQueryRange: the span is the exact difference of the two instants. Go's 64-bit `Time.Sub`, which saturates only for spans of about 292 years, is not modelled.
- Number literals carry a `real` rather than a `float64`. No validator reads them.
- The parser library's `Inspect` also visits a call's argument list as a node of its own, and calls the callback with nil after each subtree. `PromQL.Inspect` does neither. No validator acts on an argument list or on nil, so validator results are the same.

=== FILE: context.dfy ===
/** The per-request record every validator reads, the collaborators the
    core calls without implementing, and the reasons a validator gives for
    rejecting a request. */
module Context {
  import opened Wrappers
  import opened PromQL

  /** What the request carried, after parsing. Instants are nanoseconds
      since the epoch; an absent or unparsable time parameter is `None`.
      The raw HTTP request is not part of the record: no validator reads it. */
  datatype RequestContext = RequestContext(
    query: string,
    parsedAST: Expr,
    startTime: Option<int>,
    endTime: Option<int>,
    timestamp: Option<int>,
    step: string,
    isRange: bool)

  /** The clock and the library parsers: the wall-clock instant at
      validation time, the PromQL parser, the time-parameter parser
      (Unix seconds or RFC 3339) and Go's duration parser, each returning
      `None` on a parse error. */
  datatype Env = Env(
    now: int,
    parseExpr: string -> Option<Expr>,
    parseTime: string -> Option<int>,
    parseDuration: string -> Option<int>)

  /** One offending call found by the function-range validator. */
  datatype FunctionError =
    | RequiresArguments(funcName: string)
    | RangeExceedsDay(funcName: string, range: int)

  /** Why a validator rejected a request; one variant per error the
      validators return. */
  datatype ValidationError =
    | NoSpaceLabel
    | MissingSpaceLabel
    | SpaceNotAllowed(spaceValue: string, matcher: string)
    | StartTooOld
    | TimestampTooOld
    | FunctionErrors(errors: seq<FunctionError>)
    | InvalidStep(step: string)
    | StepTooSmall
    | SpanTooLong(span: int, maxSpan: int, stepDuration: int)
}

=== FILE: durations.dfy ===
/** Go's `time.Duration` units. Durations and instants are integers of
    nanoseconds; Go's 64-bit range is not imposed. */
module Durations {
  const Nanosecond: int := 1
  const Second: int := 1_000_000_000 * Nanosecond
  const Minute: int := 60 * Second
  const Hour: int := 60 * Minute
}

=== FILE: function_validate.dfy ===
/** The function-range validator: `increase` and every `*_over_time`
    function must be given arguments, and a range-vector first argument may
    span at most 24 hours. Every offending call is reported. */
module FunctionValidate {
  import opened Wrappers
  import opened Strings
  import opened Durations
  import opened PromQL
  import opened Context

  /** The longest range a checked function may aggregate over. */
  const MaxRange: int := 24 * Hour

  /** The name suffix that marks a range-aggregating function. */
  const OverTimeSuffix: string := "_over_time"

  /** The calls the validator looks at. */
  predicate IsChecked(name: string) {
    name == "increase" || HasSuffix(name, OverTimeSuffix)
  }

  /** The check on a call of `increase`. */
  function ValidateIncreaseFunction(args: seq<Expr>): (r: Option<FunctionError>)
    ensures |args| == 0 ==> r == Some(RequiresArguments("increase"))
    ensures |args| > 0 && args[0].MatrixSelector? && args[0].range > MaxRange ==>
      r == Some(RangeExceedsDay("increase", args[0].range))
    ensures r.None? <==> |args| > 0 && !(args[0].MatrixSelector? && args[0].range > MaxRange)
  {
    if |args| == 0 then Some(RequiresArguments("increase"))
    else match args[0]
      case MatrixSelector(range, _) =>
        if range > MaxRange then Some(RangeExceedsDay("increase", range)) else None
      case _ => None
  }

  /** The check on a call of an `*_over_time` function named `name`. */
  function ValidateOverTimeFunction(name: string, args: seq<Expr>): (r: Option<FunctionError>)
    ensures |args| == 0 ==> r == Some(RequiresArguments(name))
    ensures |args| > 0 && args[0].MatrixSelector? && args[0].range > MaxRange ==>
      r == Some(RangeExceedsDay(name, args[0].range))
    ensures r.None? <==> |args| > 0 && !(args[0].MatrixSelector? && args[0].range > MaxRange)
  {
    if |args| == 0 then Some(RequiresArguments(name))
    else match args[0]
      case MatrixSelector(range, _) =>
        if range > MaxRange then Some(RangeExceedsDay(name, range)) else None
      case _ => None
  }

  /** What the traversal callback records for one node: only calls are
      considered, and among them only checked names. */
  function CallError(n: Expr): (r: Option<FunctionError>)
    ensures r.Some? ==> n.Call? && IsChecked(n.funcName) && r.value.funcName == n.funcName
  {
    match n
    case Call(name, args) =>
      if name == "increase" then ValidateIncreaseFunction(args)
      else if HasSuffix(name, OverTimeSuffix) then ValidateOverTimeFunction(name, args)
      else None
    case _ => None
  }

  /** The errors of a sequence of visited nodes, in visiting order, without
      stopping at the first. */
  function CollectErrors(nodes: seq<Expr>): seq<FunctionError>
  {
    if |nodes| == 0 then []
    else (match CallError(nodes[0]) case Some(err) => [err] case None => []) + CollectErrors(nodes[1..])
  }

  /** The positions, from `from` on, of nodes that offend. */
  function OffendingFrom(nodes: seq<Expr>, from: nat): set<int>
  {
    set i | from <= i < |nodes| && CallError(nodes[i]).Some?
  }

  /** The positions of offending nodes. */
  function OffendingPositions(nodes: seq<Expr>): set<int>
  {
    OffendingFrom(nodes, 0)
  }

  /** The validator: fails when any call in the query offends, carrying
      one error per offending call in pre-order. */
  function ValidatePromQLFunctions(ctx: RequestContext): (r: Outcome<ValidationError>)
    ensures r.Pass? <==> forall n :: n in Inspect(ctx.parsedAST) ==> CallError(n).None?
    ensures r.Fail? ==>
      r.error.FunctionErrors? && |r.error.errors| == |OffendingPositions(Inspect(ctx.parsedAST))|
    ensures r.Fail? ==> r.error == FunctionErrors(CollectErrors(Inspect(ctx.parsedAST)))
  {
    var errors := CollectErrors(Inspect(ctx.parsedAST));
    ErrorsPerOffender(Inspect(ctx.parsedAST));
    if |errors| > 0 then Fail(FunctionErrors(errors)) else Pass
  }

  /** There is exactly one collected error per offending node. */
  lemma ErrorsPerOffender(nodes: seq<Expr>)
    ensures |CollectErrors(nodes)| == |OffendingPositions(nodes)|
    ensures |CollectErrors(nodes)| == 0 <==> forall n :: n in nodes ==> CallError(n).None?
  {
    ErrorsFrom(nodes, 0);
    assert nodes[0..] == nodes;
    if |CollectErrors(nodes)| == 0 {
      forall n | n in nodes ensures CallError(n).None? {
        var i :| 0 <= i < |nodes| && nodes[i] == n;
        assert i !in OffendingPositions(nodes);
      }
    } else {
      var i :| i in OffendingPositions(nodes);
      assert nodes[i] in nodes;
    }
  }

  /** The errors collected from the suffix starting at `from` are as many
      as the offending positions from there on. */
  lemma {:induction false} ErrorsFrom(nodes: seq<Expr>, from: nat)
    requires from <= |nodes|
    ensures |CollectErrors(nodes[from..])| == |OffendingFrom(nodes, from)|
    decreases |nodes| - from
  {
    if from == |nodes| {
      assert OffendingFrom(nodes, from) == {};
    } else {
      ErrorsFrom(nodes, from + 1);
      assert nodes[from..][1..] == nodes[from + 1..];
      assert from !in OffendingFrom(nodes, from + 1);
      if CallError(nodes[from]).Some? {
        assert OffendingFrom(nodes, from) == OffendingFrom(nodes, from + 1) + {from};
      } else {
        assert OffendingFrom(nodes, from) == OffendingFrom(nodes, from + 1);
      }
    }
  }

  /** Calls whose name is neither `increase` nor ends in `_over_time`, such
      as `rate`, never produce an error. */
  lemma UncheckedCallsPass(name: string, args: seq<Expr>)
    requires !IsChecked(name)
    ensures CallError(Call(name, args)) == None
  {
  }

  /** `rate` is not a checked function. */
  lemma RateNotChecked()
    ensures !IsChecked("rate")
  {
  }

  /** A checked call without arguments is reported. */
  lemma NoArgumentsReported(name: string)
    requires IsChecked(name)
    ensures CallError(Call(name, [])) == Some(RequiresArguments(name))
  {
  }

  /** A checked call over a range vector is reported exactly when the range
      is strictly longer than 24 hours; exactly 24 hours passes. */
  lemma RangeLimit(name: string, range: int, vs: Expr, rest: seq<Expr>)
    requires IsChecked(name)
    ensures CallError(Call(name, [MatrixSelector(range, vs)] + rest))
      == if range > MaxRange then Some(RangeExceedsDay(name, range)) else None
  {
  }

  /** A checked call whose first argument is not a range vector (for
      example a subquery) passes whatever its span. */
  lemma NonMatrixFirstArgumentPasses(name: string, args: seq<Expr>)
    requires |args| > 0 && !args[0].MatrixSelector?
    ensures CallError(Call(name, args)) == None
  {
  }

  /** The two per-function checks agree: `increase` is checked exactly like
      an `*_over_time` function of that name. */
  lemma IncreaseLikeOverTime(args: seq<Expr>)
    ensures ValidateIncreaseFunction(args) == ValidateOverTimeFunction("increase", args)
  {
  }

  /** Collecting over two stretches of nodes collects the first stretch's
      errors, then the second's. */
  lemma {:induction false} CollectErrorsAppend(a: seq<Expr>, b: seq<Expr>)
    ensures CollectErrors(a + b) == CollectErrors(a) + CollectErrors(b)
    decreases |a|
  {
    if |a| == 0 {
      assert a + b == b;
    } else {
      assert (a + b)[0] == a[0];
      assert (a + b)[1..] == a[1..] + b;
      CollectErrorsAppend(a[1..], b);
    }
  }

  /** Errors are reported in traversal order: for a binary expression, all
      errors of the left operand precede those of the right one. */
  lemma BinaryErrorsLeftFirst(op: string, lhs: Expr, rhs: Expr)
    ensures CollectErrors(Inspect(BinaryExpr(op, lhs, rhs)))
      == CollectErrors(Inspect(lhs)) + CollectErrors(Inspect(rhs))
  {
    var e := BinaryExpr(op, lhs, rhs);
    assert Inspect(e) == [e] + (Inspect(lhs) + Inspect(rhs));
    CollectErrorsAppend([e], Inspect(lhs) + Inspect(rhs));
    CollectErrorsAppend(Inspect(lhs), Inspect(rhs));
    assert CollectErrors([e]) == [] by {
      assert [e][1..] == [];
    }
  }

  /** The collected errors are, in order, the errors of the offending
      nodes: listed by strictly increasing positions that are exactly the
      offending positions, the k-th error is the k-th offender's own. */
  lemma ErrorPositions(nodes: seq<Expr>) returns (ps: seq<nat>)
    ensures |ps| == |CollectErrors(nodes)|
    ensures forall k :: 0 <= k < |ps| ==>
      ps[k] < |nodes| && CallError(nodes[ps[k]]) == Some(CollectErrors(nodes)[k])
    ensures forall k, l :: 0 <= k < l < |ps| ==> ps[k] < ps[l]
    ensures forall i :: i in OffendingPositions(nodes) <==> i in ps
  {
    ps := PositionsFrom(nodes, 0);
    assert nodes[0..] == nodes;
  }

  /** `ErrorPositions` for the suffix of `nodes` starting at `from`, with
      positions counted in `nodes`. */
  lemma {:induction false} PositionsFrom(nodes: seq<Expr>, from: nat) returns (ps: seq<nat>)
    requires from <= |nodes|
    ensures |ps| == |CollectErrors(nodes[from..])|
    ensures forall k :: 0 <= k < |ps| ==>
      from <= ps[k] < |nodes| && CallError(nodes[ps[k]]) == Some(CollectErrors(nodes[from..])[k])
    ensures forall k, l :: 0 <= k < l < |ps| ==> ps[k] < ps[l]
    ensures forall i :: i in OffendingFrom(nodes, from) <==> i in ps
    decreases |nodes| - from
  {
    if from == |nodes| {
      ps := [];
    } else {
      var rest := PositionsFrom(nodes, from + 1);
      var suffix := nodes[from..];
      assert suffix[0] == nodes[from] && suffix[1..] == nodes[from + 1..];
      OffendingFromStep(nodes, from);
      if CallError(nodes[from]).Some? {
        assert CollectErrors(suffix) == [CallError(nodes[from]).value] + CollectErrors(nodes[from + 1..]);
        ps := [from] + rest;
      } else {
        assert CollectErrors(suffix) == CollectErrors(nodes[from + 1..]);
        ps := rest;
      }
    }
  }

  /** The offending positions from `from` on are those from `from + 1` on,
      plus `from` itself when that node offends. */
  lemma OffendingFromStep(nodes: seq<Expr>, from: nat)
    requires from < |nodes|
    ensures OffendingFrom(nodes, from)
      == OffendingFrom(nodes, from + 1) + (if CallError(nodes[from]).Some? then {from} else {})
  {
  }
}

=== FILE: label_validate.dfy ===
/** The space-label validator: every vector selector of the query must
    constrain the `space` label, and every equality or regex constraint on it
    may only name allowed spaces. */
module LabelValidate {
  import opened Wrappers
  import opened Strings
  import opened PromQL
  import opened Context

  /** The label that scopes a query to a tenant. */
  const SpaceLabel: string := "space"

  /** The value recorded for a selector that has no `space` matcher. */
  const Missing: string := "<missing>"

  /** One record of the validator's first pass: the constrained value, the
      matcher's operator text, and whether the value is allowed. */
  datatype FoundSpace = FoundSpace(spaceValue: string, matcher: string, valid: bool)

  /** The record for a selector without any `space` matcher. */
  const MissingRecord: FoundSpace := FoundSpace(Missing, " ", false)

  /** Whether every value of `values` is in `allowed`, stopping at the first
      value that is not. */
  function AllAllowed(values: seq<string>, allowed: seq<string>): (ok: bool)
    ensures ok <==> forall i :: 0 <= i < |values| ==> values[i] in allowed
  {
    if |values| == 0 then true
    else if values[0] !in allowed then false
    else AllAllowed(values[1..], allowed)
  }

  /** The record one matcher contributes: only `space` matchers of the
      equality and regex kinds record anything. A regex value is split on
      `|` and each alternative must be allowed. */
  function MatcherRecord(allowed: seq<string>, m: Matcher): (r: Option<FoundSpace>)
    ensures r.Some? <==> m.name == SpaceLabel && m.matchType in {MatchEqual, MatchRegexp}
    ensures r.Some? ==> r.value.spaceValue == m.value && r.value.matcher == m.matchType.Symbol()
    ensures r.Some? ==>
      (r.value.valid <==>
        if m.matchType == MatchEqual then m.value in allowed
        else forall p :: p in Split(m.value, '|') ==> p in allowed)
  {
    if m.name != SpaceLabel then None
    else if m.matchType == MatchEqual then
      Some(FoundSpace(m.value, m.matchType.Symbol(), m.value in allowed))
    else if m.matchType == MatchRegexp then
      Some(FoundSpace(m.value, m.matchType.Symbol(), AllAllowed(Split(m.value, '|'), allowed)))
    else None
  }

  /** The records of a selector's matchers, in matcher order. */
  function MatcherRecords(allowed: seq<string>, ms: seq<Matcher>): seq<FoundSpace>
  {
    if |ms| == 0 then []
    else
      (match MatcherRecord(allowed, ms[0]) case Some(f) => [f] case None => [])
      + MatcherRecords(allowed, ms[1..])
  }

  /** Some matcher of the selector names the `space` label, of any kind. */
  predicate HasSpaceMatcher(ms: seq<Matcher>) {
    exists k :: 0 <= k < |ms| && ms[k].name == SpaceLabel
  }

  /** Every `space` matcher is a negative one (`!=` or `!~`). */
  predicate OnlyNegatedSpace(ms: seq<Matcher>) {
    forall k :: 0 <= k < |ms| && ms[k].name == SpaceLabel ==> ms[k].matchType in {MatchNotEqual, MatchNotRegexp}
  }

  /** The records of one vector selector: those of its matchers, then the
      missing record if no matcher names `space`. */
  function SelectorRecords(allowed: seq<string>, ms: seq<Matcher>): seq<FoundSpace>
  {
    MatcherRecords(allowed, ms) + (if HasSpaceMatcher(ms) then [] else [MissingRecord])
  }

  /** The records the traversal callback adds for one node. */
  function NodeRecords(allowed: seq<string>, n: Expr): seq<FoundSpace>
  {
    match n
    case VectorSelector(_, ms) => SelectorRecords(allowed, ms)
    case _ => []
  }

  /** The records of a sequence of visited nodes, in visiting order. */
  function Records(allowed: seq<string>, nodes: seq<Expr>): seq<FoundSpace>
  {
    if |nodes| == 0 then [] else NodeRecords(allowed, nodes[0]) + Records(allowed, nodes[1..])
  }

  /** All records of a query, in pre-order. */
  function FoundSpaces(allowed: seq<string>, e: Expr): seq<FoundSpace>
  {
    Records(allowed, Inspect(e))
  }

  /** A record that makes the request fail. The missing case is recognised
      by its value, so a real `space` value equal to the sentinel counts as
      missing too. */
  predicate Offending(f: FoundSpace) {
    f.spaceValue == Missing || !f.valid
  }

  /** The error an offending record is reported with. */
  function Reported(f: FoundSpace): ValidationError {
    if f.spaceValue == Missing then MissingSpaceLabel else SpaceNotAllowed(f.spaceValue, f.matcher)
  }

  /** The error of the first offending record, if any. */
  function FirstOffender(found: seq<FoundSpace>): (r: Option<ValidationError>)
    ensures r.None? <==> forall i :: 0 <= i < |found| ==> !Offending(found[i])
    ensures r.Some? ==>
      exists i :: 0 <= i < |found| && Offending(found[i]) && r.value == Reported(found[i])
        && forall j :: 0 <= j < i ==> !Offending(found[j])
  {
    if |found| == 0 then None
    else if found[0].spaceValue == Missing then Some(MissingSpaceLabel)
    else if !found[0].valid then Some(SpaceNotAllowed(found[0].spaceValue, found[0].matcher))
    else
      var r := FirstOffender(found[1..]);
      assert forall i :: 1 <= i < |found| ==> found[i] == found[1..][i - 1];
      r
  }

  /** The validator: no record at all fails with "at least one metric with
      a space label"; otherwise the first offending record in pre-order is
      reported; otherwise the request passes. */
  function ValidateSpaceLabel(allowed: seq<string>, ctx: RequestContext): (r: Outcome<ValidationError>)
    ensures r == Fail(NoSpaceLabel) <==> |FoundSpaces(allowed, ctx.parsedAST)| == 0
    ensures r.Pass? <==>
      |FoundSpaces(allowed, ctx.parsedAST)| > 0
        && forall i :: 0 <= i < |FoundSpaces(allowed, ctx.parsedAST)| ==> !Offending(FoundSpaces(allowed, ctx.parsedAST)[i])
    ensures r.Fail? && r.error != NoSpaceLabel ==>
      var found := FoundSpaces(allowed, ctx.parsedAST);
      exists i :: 0 <= i < |found| && Offending(found[i]) && r.error == Reported(found[i])
        && forall j :: 0 <= j < i ==> !Offending(found[j])
  {
    var found := FoundSpaces(allowed, ctx.parsedAST);
    if |found| == 0 then Fail(NoSpaceLabel)
    else
      match FirstOffender(found)
      case Some(err) => Fail(err)
      case None => Pass
  }

  /** A record is collected from a list of nodes exactly when one of the
      nodes contributes it. */
  lemma {:induction false} RecordsMember(allowed: seq<string>, nodes: seq<Expr>, f: FoundSpace)
    ensures f in Records(allowed, nodes) <==> exists i :: 0 <= i < |nodes| && f in NodeRecords(allowed, nodes[i])
    decreases |nodes|
  {
    if |nodes| > 0 {
      RecordsMember(allowed, nodes[1..], f);
      if exists i :: 0 <= i < |nodes| && f in NodeRecords(allowed, nodes[i]) {
        var i :| 0 <= i < |nodes| && f in NodeRecords(allowed, nodes[i]);
        if i > 0 {
          assert nodes[1..][i - 1] == nodes[i];
        }
      }
      if exists i :: 0 <= i < |nodes[1..]| && f in NodeRecords(allowed, nodes[1..][i]) {
        var i :| 0 <= i < |nodes[1..]| && f in NodeRecords(allowed, nodes[1..][i]);
        assert nodes[i + 1] == nodes[1..][i];
      }
    }
  }

  /** Selectors nested anywhere are inspected: a record is collected for a
      query exactly when some node reachable from the root contributes it. */
  lemma FoundSpacesReachable(allowed: seq<string>, e: Expr, f: FoundSpace)
    ensures f in FoundSpaces(allowed, e) <==> exists n :: Reachable(e, n) && f in NodeRecords(allowed, n)
  {
    var nodes := Inspect(e);
    RecordsMember(allowed, nodes, f);
    if f in FoundSpaces(allowed, e) {
      var i :| 0 <= i < |nodes| && f in NodeRecords(allowed, nodes[i]);
      InspectReachable(e, nodes[i]);
      assert Reachable(e, nodes[i]);
    }
    if exists n :: Reachable(e, n) && f in NodeRecords(allowed, n) {
      var n :| Reachable(e, n) && f in NodeRecords(allowed, n);
      ReachableRecordCollected(allowed, e, n, f);
    }
  }

  /** One direction of the above: a reachable node's record is collected. */
  lemma ReachableRecordCollected(allowed: seq<string>, e: Expr, n: Expr, f: FoundSpace)
    requires Reachable(e, n) && f in NodeRecords(allowed, n)
    ensures f in FoundSpaces(allowed, e)
  {
    var nodes := Inspect(e);
    InspectReachable(e, n);
    var i :| 0 <= i < |nodes| && nodes[i] == n;
    RecordsMember(allowed, nodes, f);
  }

  /** An offending record contributed by any reachable node makes the
      validator fail. */
  lemma OffenderAnywhereFails(allowed: seq<string>, ctx: RequestContext, n: Expr, f: FoundSpace)
    requires Reachable(ctx.parsedAST, n) && f in NodeRecords(allowed, n) && Offending(f)
    ensures ValidateSpaceLabel(allowed, ctx).Fail?
  {
    var found := FoundSpaces(allowed, ctx.parsedAST);
    FoundSpacesReachable(allowed, ctx.parsedAST, f);
    var i :| 0 <= i < |found| && found[i] == f;
  }

  /** A reachable selector with no `space` matcher makes the validator fail. */
  lemma MissingSpaceFails(allowed: seq<string>, ctx: RequestContext, name: string, ms: seq<Matcher>)
    requires Reachable(ctx.parsedAST, VectorSelector(name, ms)) && !HasSpaceMatcher(ms)
    ensures ValidateSpaceLabel(allowed, ctx).Fail?
  {
    assert MissingRecord in NodeRecords(allowed, VectorSelector(name, ms));
    OffenderAnywhereFails(allowed, ctx, VectorSelector(name, ms), MissingRecord);
  }

  /** A query without any vector selector fails with the "at least one
      metric with a space label" error. */
  lemma NoSelectorFails(allowed: seq<string>, ctx: RequestContext)
    requires forall n :: Reachable(ctx.parsedAST, n) ==> !n.VectorSelector?
    ensures ValidateSpaceLabel(allowed, ctx) == Fail(NoSpaceLabel)
  {
    var found := FoundSpaces(allowed, ctx.parsedAST);
    if |found| > 0 {
      assert found[0] in found;
      FoundSpacesReachable(allowed, ctx.parsedAST, found[0]);
    }
  }

  /** A selector whose `space` matchers are all negative records nothing. */
  lemma {:induction false} NegatedSpaceRecordsNothing(allowed: seq<string>, ms: seq<Matcher>)
    requires OnlyNegatedSpace(ms)
    ensures MatcherRecords(allowed, ms) == []
    decreases |ms|
  {
    if |ms| > 0 {
      assert OnlyNegatedSpace(ms[1..]) by {
        forall k | 0 <= k < |ms[1..]| && ms[1..][k].name == SpaceLabel
          ensures ms[1..][k].matchType in {MatchNotEqual, MatchNotRegexp}
        {
          assert ms[1..][k] == ms[k + 1];
        }
      }
      NegatedSpaceRecordsNothing(allowed, ms[1..]);
    }
  }

  /** When every reachable selector restricts `space` only with `!=` or
      `!~`, nothing is recorded and the "at least one" error results. */
  lemma OnlyNegatedSpaceFails(allowed: seq<string>, ctx: RequestContext)
    requires forall n :: Reachable(ctx.parsedAST, n) && n.VectorSelector? ==>
      HasSpaceMatcher(n.labelMatchers) && OnlyNegatedSpace(n.labelMatchers)
    ensures ValidateSpaceLabel(allowed, ctx) == Fail(NoSpaceLabel)
  {
    var found := FoundSpaces(allowed, ctx.parsedAST);
    if |found| > 0 {
      assert found[0] in found;
      FoundSpacesReachable(allowed, ctx.parsedAST, found[0]);
      var n :| Reachable(ctx.parsedAST, n) && found[0] in NodeRecords(allowed, n);
      NegatedSpaceRecordsNothing(allowed, n.labelMatchers);
    }
  }

  /** The validator passes exactly when some reachable selector records a
      constraint and no reachable selector records an offending one. */
  lemma PassIff(allowed: seq<string>, ctx: RequestContext)
    ensures ValidateSpaceLabel(allowed, ctx).Pass? <==>
      (exists n, f :: Reachable(ctx.parsedAST, n) && f in NodeRecords(allowed, n))
        && forall n, f :: Reachable(ctx.parsedAST, n) && f in NodeRecords(allowed, n) ==> !Offending(f)
  {
    var e := ctx.parsedAST;
    var found := FoundSpaces(allowed, e);
    if ValidateSpaceLabel(allowed, ctx).Pass? {
      FoundSpacesReachable(allowed, e, found[0]);
      assert found[0] in found;
      forall n, f | Reachable(e, n) && f in NodeRecords(allowed, n) ensures !Offending(f) {
        FoundSpacesReachable(allowed, e, f);
      }
    }
    if exists n, f :: Reachable(e, n) && f in NodeRecords(allowed, n) {
      var n, f :| Reachable(e, n) && f in NodeRecords(allowed, n);
      FoundSpacesReachable(allowed, e, f);
      if forall n, f :: Reachable(e, n) && f in NodeRecords(allowed, n) ==> !Offending(f) {
        forall i | 0 <= i < |found| ensures !Offending(found[i]) {
          FoundSpacesReachable(allowed, e, found[i]);
        }
      }
    }
  }

  /** A lone selector's records are the query's records. */
  lemma SingleNodeRecords(allowed: seq<string>, e: Expr)
    requires e.VectorSelector?
    ensures FoundSpaces(allowed, e) == SelectorRecords(allowed, e.labelMatchers)
  {
    assert Inspect(e) == [e];
    assert Records(allowed, [e]) == NodeRecords(allowed, e) + Records(allowed, []);
  }

  /** A query that is one selector with one equality `space` matcher passes
      exactly when the value is allowed (and is not the missing sentinel). */
  lemma EqualityAcceptedIff(allowed: seq<string>, ctx: RequestContext, name: string, v: string)
    requires ctx.parsedAST == VectorSelector(name, [Matcher(SpaceLabel, MatchEqual, v)])
    ensures ValidateSpaceLabel(allowed, ctx).Pass? <==> v in allowed && v != Missing
  {
    var ms := [Matcher(SpaceLabel, MatchEqual, v)];
    assert HasSpaceMatcher(ms) by { assert ms[0].name == SpaceLabel; }
    assert MatcherRecords(allowed, ms) == [FoundSpace(v, "=", v in allowed)];
    SingleNodeRecords(allowed, ctx.parsedAST);
  }

  /** A query that is one selector with one regex `space` matcher passes
      exactly when every `|`-separated alternative is allowed (and the value
      is not the missing sentinel). */
  lemma RegexAcceptedIff(allowed: seq<string>, ctx: RequestContext, name: string, v: string)
    requires ctx.parsedAST == VectorSelector(name, [Matcher(SpaceLabel, MatchRegexp, v)])
    ensures ValidateSpaceLabel(allowed, ctx).Pass? <==>
      (forall p :: p in Split(v, '|') ==> p in allowed) && v != Missing
  {
    var ms := [Matcher(SpaceLabel, MatchRegexp, v)];
    assert HasSpaceMatcher(ms) by { assert ms[0].name == SpaceLabel; }
    assert MatcherRecords(allowed, ms) == [FoundSpace(v, "=~", AllAllowed(Split(v, '|'), allowed))];
    SingleNodeRecords(allowed, ctx.parsedAST);
  }

  /** A regex value ending in `|` has an empty last alternative, so in any
      query a reachable selector with such a `space` matcher is rejected
      unless the empty string is an allowed space. */
  lemma TrailingAlternativeRejected(allowed: seq<string>, ctx: RequestContext, name: string, ms: seq<Matcher>, k: int)
    requires Reachable(ctx.parsedAST, VectorSelector(name, ms))
    requires 0 <= k < |ms| && ms[k].name == SpaceLabel && ms[k].matchType == MatchRegexp
    requires |ms[k].value| > 0 && ms[k].value[|ms[k].value| - 1] == '|' && "" !in allowed
    ensures ValidateSpaceLabel(allowed, ctx).Fail?
  {
    SplitTrailingSeparator(ms[k].value, '|');
    var pieces := Split(ms[k].value, '|');
    assert pieces[|pieces| - 1] in pieces;
    DisallowedMatcherFails(allowed, ctx, name, ms, k);
  }

  /** The missing case is recognised by value: an equality matcher whose
      value is the sentinel text is reported as a missing `space` label,
      whatever the allowed set holds. */
  lemma SentinelValueReportedMissing(allowed: seq<string>, ctx: RequestContext, name: string)
    requires ctx.parsedAST == VectorSelector(name, [Matcher(SpaceLabel, MatchEqual, Missing)])
    ensures ValidateSpaceLabel(allowed, ctx) == Fail(MissingSpaceLabel)
  {
  }

  /** Each matcher's record appears among the selector's records. */
  lemma {:induction false} MatcherRecordCollected(allowed: seq<string>, ms: seq<Matcher>, k: int)
    requires 0 <= k < |ms| && MatcherRecord(allowed, ms[k]).Some?
    ensures MatcherRecord(allowed, ms[k]).value in MatcherRecords(allowed, ms)
    decreases |ms|
  {
    if k > 0 {
      assert ms[1..][k - 1] == ms[k];
      MatcherRecordCollected(allowed, ms[1..], k - 1);
    }
  }

  /** In any query, a reachable selector with an equality `space` matcher
      whose value is not allowed, or a regex `space` matcher with an
      alternative that is not allowed, makes the validator fail. */
  lemma DisallowedMatcherFails(allowed: seq<string>, ctx: RequestContext, name: string, ms: seq<Matcher>, k: int)
    requires Reachable(ctx.parsedAST, VectorSelector(name, ms))
    requires 0 <= k < |ms| && ms[k].name == SpaceLabel
    requires (ms[k].matchType == MatchEqual && ms[k].value !in allowed)
      || (ms[k].matchType == MatchRegexp && exists p :: p in Split(ms[k].value, '|') && p !in allowed)
    ensures ValidateSpaceLabel(allowed, ctx).Fail?
  {
    var f := MatcherRecord(allowed, ms[k]).value;
    MatcherRecordCollected(allowed, ms, k);
    assert f in NodeRecords(allowed, VectorSelector(name, ms));
    OffenderAnywhereFails(allowed, ctx, VectorSelector(name, ms), f);
  }

  /** A selector records nothing exactly when it has a `space` matcher and
      every one of them is negative (`!=` or `!~`). */
  lemma SelectorRecordsEmptyIff(allowed: seq<string>, ms: seq<Matcher>)
    ensures SelectorRecords(allowed, ms) == [] <==> HasSpaceMatcher(ms) && OnlyNegatedSpace(ms)
  {
    if OnlyNegatedSpace(ms) {
      NegatedSpaceRecordsNothing(allowed, ms);
    } else {
      var k :| 0 <= k < |ms| && ms[k].name == SpaceLabel && ms[k].matchType !in {MatchNotEqual, MatchNotRegexp};
      MatcherRecordCollected(allowed, ms, k);
    }
  }
}

=== FILE: middleware.dfy ===
/** The one-operation validator interface: each validator reads the request
    context and either passes or fails with a reason. The four concrete
    validators are the variants. */
module Middleware {
  import opened Wrappers
  import opened Context
  import LabelValidate
  import TimeValidate
  import FunctionValidate
  import RangeValidate

  /** A validator with its configuration; only the label validator has any,
      the allowed spaces, which it never changes. */
  datatype Validator =
    | LabelValidator(allowedSpaces: seq<string>)
    | TimeValidator
    | FunctionValidator
    | QueryRangeValidator

  /** The errors a validator can report. */
  predicate ReportsOwnError(v: Validator, err: ValidationError) {
    match v
    case LabelValidator(_) => err.NoSpaceLabel? || err.MissingSpaceLabel? || err.SpaceNotAllowed?
    case TimeValidator => err.StartTooOld? || err.TimestampTooOld?
    case FunctionValidator => err.FunctionErrors?
    case QueryRangeValidator => err.InvalidStep? || err.StepTooSmall? || err.SpanTooLong?
  }

  /** Runs one validator on a context; `env` supplies the clock and the
      duration parser. Every failure names an error of that validator. */
  function Process(v: Validator, ctx: RequestContext, env: Env): (r: Outcome<ValidationError>)
    ensures r.Fail? ==> ReportsOwnError(v, r.error)
  {
    match v
    case LabelValidator(allowed) => LabelValidate.ValidateSpaceLabel(allowed, ctx)
    case TimeValidator => TimeValidate.ValidateTimeRange(ctx, env.now)
    case FunctionValidator => FunctionValidate.ValidatePromQLFunctions(ctx)
    case QueryRangeValidator => RangeValidate.ValidateQueryRange(ctx, env.parseDuration)
  }
}

=== FILE: promql.dfy ===
/** The parsed PromQL expression tree the validators inspect, and a
    depth-first pre-order traversal standing in for the parser library's
    `Inspect`. */
module PromQL {
  import opened Wrappers

  /** The four label-matcher kinds of the Prometheus labels package. */
  datatype MatchType = MatchEqual | MatchNotEqual | MatchRegexp | MatchNotRegexp
  {
    /** The operator text the labels package prints for the kind. */
    function Symbol(): string {
      match this
      case MatchEqual => "="
      case MatchNotEqual => "!="
      case MatchRegexp => "=~"
      case MatchNotRegexp => "!~"
    }
  }

  /** One label constraint of a selector, such as `space=~"a|b"`. */
  datatype Matcher = Matcher(name: string, matchType: MatchType, value: string)

  /** The node kinds of a parsed expression. Ranges and steps are durations
      in nanoseconds. Operators are kept as their source text. */
  datatype Expr =
    | VectorSelector(name: string, labelMatchers: seq<Matcher>)
    | MatrixSelector(range: int, vectorSelector: Expr)
    | Call(funcName: string, args: seq<Expr>)
    | AggregateExpr(op: string, grouping: seq<string>, without: bool, expr: Expr, param: Option<Expr>)
    | BinaryExpr(op: string, lhs: Expr, rhs: Expr)
    | UnaryExpr(op: string, expr: Expr)
    | ParenExpr(expr: Expr)
    | NumberLiteral(number: real)
    | StringLiteral(text: string)
    | SubqueryExpr(expr: Expr, range: int, step: int)

  /** The direct children of a node, in the order the tree printer
      recurses into them. */
  function Children(e: Expr): (cs: seq<Expr>)
    ensures forall i :: 0 <= i < |cs| ==> cs[i] < e
  {
    match e
    case VectorSelector(_, _) => []
    case MatrixSelector(_, vs) => [vs]
    case Call(_, args) => args
    case AggregateExpr(_, _, _, x, param) =>
      (match param case Some(p) => [x, p] case None => [x])
    case BinaryExpr(_, lhs, rhs) => [lhs, rhs]
    case UnaryExpr(_, x) => [x]
    case ParenExpr(x) => [x]
    case NumberLiteral(_) => []
    case StringLiteral(_) => []
    case SubqueryExpr(x, _, _) => [x]
  }

  /** Every node of the tree, depth-first and pre-order: the node itself,
      then the traversals of its children from left to right. */
  function Inspect(e: Expr): (nodes: seq<Expr>)
    ensures |nodes| >= 1 && nodes[0] == e
    decreases e
  {
    match e
    case VectorSelector(_, _) => [e]
    case MatrixSelector(_, vs) => [e] + Inspect(vs)
    case Call(_, args) => [e] + InspectAll(args)
    case AggregateExpr(_, _, _, x, param) =>
      [e] + Inspect(x) + (match param case Some(p) => Inspect(p) case None => [])
    case BinaryExpr(_, lhs, rhs) => [e] + Inspect(lhs) + Inspect(rhs)
    case UnaryExpr(_, x) => [e] + Inspect(x)
    case ParenExpr(x) => [e] + Inspect(x)
    case NumberLiteral(_) => [e]
    case StringLiteral(_) => [e]
    case SubqueryExpr(x, _, _) => [e] + Inspect(x)
  }

  /** The traversals of `es`, one after the other. */
  function InspectAll(es: seq<Expr>): seq<Expr>
    decreases es
  {
    if |es| == 0 then [] else Inspect(es[0]) + InspectAll(es[1..])
  }

  /** `n` is `e` or lies below it. */
  ghost predicate Reachable(e: Expr, n: Expr)
    decreases e
  {
    n == e || exists i :: 0 <= i < |Children(e)| && Reachable(Children(e)[i], n)
  }

  /** The traversal is pre-order: the node first, then each child's whole
      traversal, children left to right. */
  lemma InspectPreOrder(e: Expr)
    ensures Inspect(e) == [e] + InspectAll(Children(e))
  {
    match e
    case MatrixSelector(_, vs) =>
      assert InspectAll([vs]) == Inspect(vs) + InspectAll([]);
    case AggregateExpr(_, _, _, x, param) =>
      match param {
        case Some(p) =>
          assert [x, p][1..] == [p];
          assert InspectAll([p]) == Inspect(p) + InspectAll([]);
          assert InspectAll([x, p]) == Inspect(x) + Inspect(p);
        case None =>
          assert InspectAll([x]) == Inspect(x) + InspectAll([]);
      }
    case BinaryExpr(_, lhs, rhs) =>
      assert [lhs, rhs][1..] == [rhs];
      assert InspectAll([rhs]) == Inspect(rhs) + InspectAll([]);
      assert InspectAll([lhs, rhs]) == Inspect(lhs) + Inspect(rhs);
    case UnaryExpr(_, x) =>
      assert InspectAll([x]) == Inspect(x) + InspectAll([]);
    case ParenExpr(x) =>
      assert InspectAll([x]) == Inspect(x) + InspectAll([]);
    case SubqueryExpr(x, _, _) =>
      assert InspectAll([x]) == Inspect(x) + InspectAll([]);
    case _ =>
  }

  /** A node is visited by the traversal exactly when it is reachable. */
  lemma {:induction false} InspectReachable(e: Expr, n: Expr)
    ensures n in Inspect(e) <==> Reachable(e, n)
    decreases e, 1
  {
    InspectPreOrder(e);
    InspectAllReachable(Children(e), n, e);
  }

  /** A node is visited by the traversal of a list of children exactly when
      it is reachable from one of them. */
  lemma {:induction false} InspectAllReachable(es: seq<Expr>, n: Expr, parent: Expr)
    requires forall i :: 0 <= i < |es| ==> es[i] < parent
    ensures n in InspectAll(es) <==> exists i :: 0 <= i < |es| && Reachable(es[i], n)
    decreases parent, 0, |es|
  {
    if |es| > 0 {
      InspectReachable(es[0], n);
      InspectAllReachable(es[1..], n, parent);
      assert n in InspectAll(es) <==> n in Inspect(es[0]) || n in InspectAll(es[1..]);
      if exists i :: 0 <= i < |es| && Reachable(es[i], n) {
        var i :| 0 <= i < |es| && Reachable(es[i], n);
        if i > 0 {
          assert es[1..][i - 1] == es[i];
        }
      }
      if exists i :: 0 <= i < |es[1..]| && Reachable(es[1..][i], n) {
        var i :| 0 <= i < |es[1..]| && Reachable(es[1..][i], n);
        assert es[i + 1] == es[1..][i];
      }
    }
  }
}

=== FILE: proxy.dfy ===
/** The request-decision logic of the proxy server: registering
    validators, running them first-failure-wins, building the request
    context, deciding between rejecting and forwarding, and the forwarding
    target. */
module Proxy {
  import opened Wrappers
  import opened Strings
  import opened Context
  import opened Middleware

  /** Appends validators to the chain, keeping the registered ones first
      and in order. */
  function RegisterMiddlewares(chain: seq<Validator>, added: seq<Validator>): (r: seq<Validator>)
    ensures |r| == |chain| + |added|
    ensures r[..|chain|] == chain && r[|chain|..] == added
  {
    chain + added
  }

  /** The chain production registers, in order. */
  function ProductionChain(allowedSpaces: seq<string>): seq<Validator>
  {
    [LabelValidator(allowedSpaces), TimeValidator, FunctionValidator, QueryRangeValidator]
  }

  /** The result of a chain: the failure of the first validator that fails,
      or a pass when none does. */
  function FirstFailure(chain: seq<Validator>, ctx: RequestContext, env: Env): (r: Outcome<ValidationError>)
    ensures r.Pass? <==> forall i :: 0 <= i < |chain| ==> Process(chain[i], ctx, env).Pass?
    ensures r.Fail? ==>
      exists i :: 0 <= i < |chain| && Process(chain[i], ctx, env) == r
        && forall j :: 0 <= j < i ==> Process(chain[j], ctx, env).Pass?
  {
    if |chain| == 0 then Pass
    else
      var head := Process(chain[0], ctx, env);
      if head.Fail? then head
      else
        var r := FirstFailure(chain[1..], ctx, env);
        assert forall i :: 1 <= i < |chain| ==> chain[i] == chain[1..][i - 1];
        r
  }

  /** Runs the chain in registration order and stops at the first failure. */
  method ProcessMiddlewares(chain: seq<Validator>, ctx: RequestContext, env: Env) returns (r: Outcome<ValidationError>)
    ensures r == FirstFailure(chain, ctx, env)
    ensures r.Pass? <==> forall i :: 0 <= i < |chain| ==> Process(chain[i], ctx, env).Pass?
  {
    var i := 0;
    while i < |chain|
      invariant 0 <= i <= |chain|
      invariant forall j :: 0 <= j < i ==> Process(chain[j], ctx, env).Pass?
      invariant FirstFailure(chain, ctx, env) == FirstFailure(chain[i..], ctx, env)
    {
      var result := Process(chain[i], ctx, env);
      if result.Fail? {
        return result;
      }
      assert chain[i..][1..] == chain[i + 1..];
      i := i + 1;
    }
    return Pass;
  }

  /** Once a validator fails, later registrations cannot change the
      outcome; otherwise the added validators decide it. */
  lemma {:induction false} RegisterThenProcess(chain: seq<Validator>, added: seq<Validator>, ctx: RequestContext, env: Env)
    ensures FirstFailure(RegisterMiddlewares(chain, added), ctx, env)
      == if FirstFailure(chain, ctx, env).Fail? then FirstFailure(chain, ctx, env) else FirstFailure(added, ctx, env)
  {
    if |chain| == 0 {
      assert chain + added == added;
    } else {
      var all := chain + added;
      assert all[0] == chain[0];
      assert all[1..] == chain[1..] + added;
      if Process(chain[0], ctx, env).Pass? {
        RegisterThenProcess(chain[1..], added, ctx, env);
      }
    }
  }

  /** The chain's result with one validator in front: that validator's
      failure, or else the rest's result. */
  lemma FirstFailureCons(v: Validator, rest: seq<Validator>, ctx: RequestContext, env: Env)
    ensures FirstFailure([v] + rest, ctx, env)
      == if Process(v, ctx, env).Fail? then Process(v, ctx, env) else FirstFailure(rest, ctx, env)
  {
  }

  /** The production chain reports a label error before a time error, a
      time error before a function error, and those before a step/span
      error. */
  lemma ProductionOrder(allowedSpaces: seq<string>, ctx: RequestContext, env: Env)
    ensures FirstFailure(ProductionChain(allowedSpaces), ctx, env) ==
      var spaces := Process(LabelValidator(allowedSpaces), ctx, env);
      var window := Process(TimeValidator, ctx, env);
      var calls := Process(FunctionValidator, ctx, env);
      if spaces.Fail? then spaces else if window.Fail? then window
      else if calls.Fail? then calls else Process(QueryRangeValidator, ctx, env)
  {
    var last := [QueryRangeValidator];
    var middle := [FunctionValidator] + last;
    var tail := [TimeValidator] + middle;
    var chain := [LabelValidator(allowedSpaces)] + tail;
    assert chain == ProductionChain(allowedSpaces);
    FirstFailureCons(LabelValidator(allowedSpaces), tail, ctx, env);
    FirstFailureCons(TimeValidator, middle, ctx, env);
    FirstFailureCons(FunctionValidator, last, ctx, env);
    FirstFailureCons(QueryRangeValidator, [], ctx, env);
    assert last == [QueryRangeValidator] + [];
  }

  /** The parts of an incoming request the handler reads: its path, its raw
      query string, and the decoded query parameters in order. */
  datatype Request = Request(path: string, rawQuery: string, params: seq<(string, string)>)

  /** Why a request could not be turned into a context. */
  datatype RequestError = MissingQuery | InvalidSyntax

  /** The first value of a query parameter, or "" when it is absent. */
  function QueryGet(params: seq<(string, string)>, key: string): (v: string)
    ensures (forall i :: 0 <= i < |params| ==> params[i].0 != key) ==> v == ""
    ensures v != "" ==> exists i :: 0 <= i < |params| && params[i] == (key, v)
    ensures (exists i :: 0 <= i < |params| && params[i].0 == key) ==>
      exists i :: 0 <= i < |params| && params[i] == (key, v) && forall j :: 0 <= j < i ==> params[j].0 != key
  {
    if |params| == 0 then ""
    else if params[0].0 == key then params[0].1
    else
      var v := QueryGet(params[1..], key);
      assert forall i :: 1 <= i < |params| ==> params[i] == params[1..][i - 1];
      v
  }

  /** A time parameter: absent when empty or unparsable. */
  function TimeParam(s: string, parseTime: string -> Option<int>): (t: Option<int>)
    ensures t.Some? ==> s != "" && parseTime(s) == t
    ensures s != "" && parseTime(s).Some? ==> t == parseTime(s)
  {
    if s == "" then None else parseTime(s)
  }

  /** A path asks for a range query when, after one leading `/` is trimmed,
      it contains `query_range`. */
  function IsRangePath(path: string): bool
  {
    Contains(TrimPrefix(path, "/"), "query_range")
  }

  /** Trimming the leading `/` never matters: a path is a range path exactly
      when `query_range` occurs anywhere in it. */
  lemma IsRangePathIff(path: string)
    ensures IsRangePath(path) <==> exists i :: OccursAt(path, "query_range", i)
  {
    if HasPrefix(path, "/") {
      var rest := TrimPrefix(path, "/");
      assert path == ['/'] + rest;
      ContainsIgnoresLeadingChar('/', rest, "query_range");
    }
    ContainsIffOccurs(path, "query_range");
  }

  /** Builds the context of a request with a `query` parameter. */
  function ParseRequestContext(req: Request, env: Env): (r: Result<RequestContext, RequestError>)
    ensures r == Err(MissingQuery) <==> QueryGet(req.params, "query") == ""
    ensures r == Err(InvalidSyntax) <==>
      QueryGet(req.params, "query") != "" && env.parseExpr(QueryGet(req.params, "query")).None?
    ensures r.Ok? ==>
      && r.value.query == QueryGet(req.params, "query") && r.value.query != ""
      && env.parseExpr(r.value.query) == Some(r.value.parsedAST)
      && (r.value.isRange <==> exists i :: OccursAt(req.path, "query_range", i))
      && r.value.step == QueryGet(req.params, "step")
    ensures r.Ok? ==>
      && r.value.startTime == TimeParam(QueryGet(req.params, "start"), env.parseTime)
      && r.value.endTime == TimeParam(QueryGet(req.params, "end"), env.parseTime)
      && r.value.timestamp == TimeParam(QueryGet(req.params, "time"), env.parseTime)
  {
    var query := QueryGet(req.params, "query");
    if query == "" then Err(MissingQuery)
    else match env.parseExpr(query)
      case None => Err(InvalidSyntax)
      case Some(expr) =>
        IsRangePathIff(req.path);
        Ok(RequestContext(
          query := query,
          parsedAST := expr,
          startTime := TimeParam(QueryGet(req.params, "start"), env.parseTime),
          endTime := TimeParam(QueryGet(req.params, "end"), env.parseTime),
          timestamp := TimeParam(QueryGet(req.params, "time"), env.parseTime),
          step := QueryGet(req.params, "step"),
          isRange := IsRangePath(req.path)))
  }

  /** An unparsable time parameter is left absent rather than rejected. */
  lemma UnparsableTimeAbsent(req: Request, env: Env)
    requires QueryGet(req.params, "query") != "" && env.parseExpr(QueryGet(req.params, "query")).Some?
    requires env.parseTime(QueryGet(req.params, "start")).None?
    requires env.parseTime(QueryGet(req.params, "end")).None?
    requires env.parseTime(QueryGet(req.params, "time")).None?
    ensures ParseRequestContext(req, env).value.startTime.None?
    ensures ParseRequestContext(req, env).value.endTime.None?
    ensures ParseRequestContext(req, env).value.timestamp.None?
  {
  }

  /** The backend URL for a request: base URL and path, then `?` and the raw
      query only when there is one. */
  function TargetURL(backend: string, path: string, rawQuery: string): (url: string)
    ensures HasPrefix(url, backend + path)
    ensures rawQuery == "" ==> url == backend + path
    ensures rawQuery != "" ==> url[|backend + path|..] == "?" + rawQuery
  {
    if rawQuery != "" then backend + path + "?" + rawQuery else backend + path
  }

  /** The index of the first `?` in `s`, or `|s|` when there is none. */
  function QuestionMark(s: string): (k: nat)
    ensures k <= |s|
    ensures forall j :: 0 <= j < k ==> s[j] != '?'
    ensures k < |s| ==> s[k] == '?'
  {
    if |s| == 0 || s[0] == '?' then 0 else 1 + QuestionMark(s[1..])
  }

  /** Reads the path and raw query back out of a target URL. */
  function SplitTargetURL(backend: string, url: string): (string, string)
    requires HasPrefix(url, backend)
  {
    var rest := url[|backend|..];
    var k := QuestionMark(rest);
    if k == |rest| then (rest, "") else (rest[..k], rest[k + 1..])
  }

  /** For a path without `?`, the target URL determines path and raw query:
      reading them back gives what was put in. */
  lemma TargetURLRoundTrip(backend: string, path: string, rawQuery: string)
    requires '?' !in path
    ensures HasPrefix(TargetURL(backend, path, rawQuery), backend)
    ensures SplitTargetURL(backend, TargetURL(backend, path, rawQuery)) == (path, rawQuery)
  {
    var url := TargetURL(backend, path, rawQuery);
    assert url[..|backend|] == backend;
    var rest := url[|backend|..];
    assert forall j :: 0 <= j < |path| ==> path[j] != '?' by {
      forall j | 0 <= j < |path| ensures path[j] != '?' {
        assert path[j] in path;
      }
    }
    if rawQuery == "" {
      assert rest == path;
    } else {
      assert rest == path + "?" + rawQuery;
      assert rest[|path|] == '?';
      assert rest[..|path|] == path;
      assert rest[|path| + 1..] == rawQuery;
    }
  }

  /** The HTTP status of a rejected request. */
  const StatusBadRequest: int := 400

  /** Why a request was turned away before reaching the backend. */
  datatype Rejection = Malformed(requestError: RequestError) | Invalid(validationError: ValidationError)

  /** What the query handler does with a request once it holds an
      admission slot. */
  datatype Decision =
    | Forward(targetURL: string)
    | Reject(status: int, reason: Rejection)

  /** The query handler: a request with a non-empty `query` parameter is
      parsed and validated, and rejected on the first problem; every other
      request, and every request that passes, is forwarded. */
  function HandleQuery(backend: string, chain: seq<Validator>, req: Request, env: Env): (d: Decision)
    ensures QueryGet(req.params, "query") == "" ==> d == Forward(TargetURL(backend, req.path, req.rawQuery))
    ensures d.Forward? ==> d.targetURL == TargetURL(backend, req.path, req.rawQuery)
    ensures d.Reject? ==> d.status == StatusBadRequest && d.reason != Malformed(MissingQuery)
    ensures QueryGet(req.params, "query") != "" && env.parseExpr(QueryGet(req.params, "query")).None? ==>
      d == Reject(StatusBadRequest, Malformed(InvalidSyntax))
    ensures (QueryGet(req.params, "query") != "" && ParseRequestContext(req, env).Ok?
             && FirstFailure(chain, ParseRequestContext(req, env).value, env).Fail?) ==>
      d == Reject(StatusBadRequest, Invalid(FirstFailure(chain, ParseRequestContext(req, env).value, env).error))
  {
    if QueryGet(req.params, "query") != "" then
      match ParseRequestContext(req, env)
      case Err(err) => Reject(StatusBadRequest, Malformed(err))
      case Ok(ctx) =>
        match FirstFailure(chain, ctx, env)
        case Fail(err) => Reject(StatusBadRequest, Invalid(err))
        case Pass => Forward(TargetURL(backend, req.path, req.rawQuery))
    else Forward(TargetURL(backend, req.path, req.rawQuery))
  }

  /** A request with a `query` parameter is forwarded exactly when its
      context can be built and every registered validator passes on it. */
  lemma ForwardIff(backend: string, chain: seq<Validator>, req: Request, env: Env)
    requires QueryGet(req.params, "query") != ""
    ensures HandleQuery(backend, chain, req, env).Forward? <==>
      ParseRequestContext(req, env).Ok?
        && forall i :: 0 <= i < |chain| ==> Process(chain[i], ParseRequestContext(req, env).value, env).Pass?
  {
  }
}

=== FILE: range_validate.dfy ===
/** The step/span validator: a range query's step must be at least a
    minute, and the queried span may be at most a cap that grows with the
    step. */
module RangeValidate {
  import opened Wrappers
  import opened Durations
  import opened Context

  /** The longest span allowed for a step, looked up in descending order
      of step size; `None` for a step under one minute. */
  function MaxSpan(step: int): (cap: Option<int>)
    ensures cap.None? <==> step < Minute
    ensures cap.Some? ==> 6 * Hour <= cap.value <= 24 * Hour
  {
    if step >= 10 * Minute then Some(24 * Hour)
    else if step >= 5 * Minute then Some(24 * Hour)
    else if step >= 2 * Minute then Some(12 * Hour)
    else if step >= 1 * Minute then Some(6 * Hour)
    else None
  }

  /** The queried span: end minus start when both are present, else zero.
      No ordering of the two is required, so the span may be negative. */
  function QuerySpan(ctx: RequestContext): int
  {
    if ctx.startTime.Some? && ctx.endTime.Some? then ctx.endTime.value - ctx.startTime.value else 0
  }

  /** The validator, given Go's duration parser. Instant queries and range
      queries without a step pass untouched. */
  function ValidateQueryRange(ctx: RequestContext, parseDuration: string -> Option<int>): (r: Outcome<ValidationError>)
    ensures !ctx.isRange || ctx.step == "" ==> r == Pass
    ensures ctx.isRange && ctx.step != "" && parseDuration(ctx.step).None? ==> r == Fail(InvalidStep(ctx.step))
    ensures ctx.isRange && ctx.step != "" && parseDuration(ctx.step).Some? ==>
      var step := parseDuration(ctx.step).value;
      && (step < Minute ==> r == Fail(StepTooSmall))
      && (step >= Minute ==> (r.Pass? <==> QuerySpan(ctx) <= MaxSpan(step).value))
      && (r.Fail? && step >= Minute ==> r == Fail(SpanTooLong(QuerySpan(ctx), MaxSpan(step).value, step)))
  {
    if !ctx.isRange || ctx.step == "" then Pass
    else match parseDuration(ctx.step)
      case None => Fail(InvalidStep(ctx.step))
      case Some(step) =>
        var span := QuerySpan(ctx);
        match MaxSpan(step)
        case None => Fail(StepTooSmall)
        case Some(cap) => if span > cap then Fail(SpanTooLong(span, cap, step)) else Pass
  }

  /** A longer step never lowers the cap, and a step that is accepted stays
      accepted when lengthened. */
  lemma MaxSpanMonotone(a: int, b: int)
    requires a <= b && MaxSpan(a).Some?
    ensures MaxSpan(b).Some? && MaxSpan(a).value <= MaxSpan(b).value
  {
  }

  /** The steps at each band edge get the tabled caps. */
  lemma MaxSpanTable()
    ensures MaxSpan(10 * Minute) == Some(24 * Hour)
    ensures MaxSpan(5 * Minute) == Some(24 * Hour)
    ensures MaxSpan(2 * Minute) == Some(12 * Hour)
    ensures MaxSpan(Minute) == Some(6 * Hour)
    ensures MaxSpan(Minute - 1) == None
  {
  }

  /** With a step of at least a minute, a span equal to the cap passes, a
      negative span passes, and a request missing either endpoint passes. */
  lemma SpanBoundaries(ctx: RequestContext, parseDuration: string -> Option<int>, step: int)
    requires ctx.isRange && ctx.step != "" && parseDuration(ctx.step) == Some(step) && step >= Minute
    requires QuerySpan(ctx) == MaxSpan(step).value || QuerySpan(ctx) < 0
      || ctx.startTime.None? || ctx.endTime.None?
    ensures ValidateQueryRange(ctx, parseDuration) == Pass
  {
  }

  /** A step under a minute fails the same way whatever the span. */
  lemma SmallStepIgnoresSpan(ctx: RequestContext, parseDuration: string -> Option<int>, start: Option<int>, end: Option<int>)
    requires ctx.isRange && ctx.step != "" && parseDuration(ctx.step).Some?
    requires parseDuration(ctx.step).value < Minute
    ensures ValidateQueryRange(ctx.(startTime := start, endTime := end), parseDuration) == Fail(StepTooSmall)
  {
  }
}

=== FILE: strings.dfy ===
/** The handful of Go `strings` operations the validation core relies on,
    written out over `seq<char>`. */
module Strings {

  /** `strings.HasPrefix`. */
  predicate HasPrefix(s: string, prefix: string) {
    |prefix| <= |s| && s[..|prefix|] == prefix
  }

  /** `strings.HasSuffix`. */
  predicate HasSuffix(s: string, suffix: string) {
    |suffix| <= |s| && s[|s| - |suffix|..] == suffix
  }

  /** `strings.TrimPrefix`: drops one leading copy of `prefix`, if present. */
  function TrimPrefix(s: string, prefix: string): (r: string)
    ensures HasPrefix(s, prefix) ==> prefix + r == s
    ensures !HasPrefix(s, prefix) ==> r == s
  {
    if HasPrefix(s, prefix) then s[|prefix|..] else s
  }

  /** `sub` occurs in `s` starting at index `i`. */
  ghost predicate OccursAt(s: string, sub: string, i: int) {
    0 <= i && i + |sub| <= |s| && s[i..i + |sub|] == sub
  }

  /** `strings.Contains`, scanning left to right. */
  function Contains(s: string, sub: string): bool
    decreases |s|
  {
    if |sub| > |s| then false
    else if s[..|sub|] == sub then true
    else Contains(s[1..], sub)
  }

  /** `Contains` holds exactly when `sub` occurs at some index of `s`. */
  lemma {:induction false} ContainsIffOccurs(s: string, sub: string)
    ensures Contains(s, sub) <==> exists i :: OccursAt(s, sub, i)
    decreases |s|
  {
    if |sub| > |s| {
      // no index leaves room for sub
    } else if s[..|sub|] == sub {
      assert OccursAt(s, sub, 0);
    } else {
      ContainsIffOccurs(s[1..], sub);
      if Contains(s[1..], sub) {
        var i :| OccursAt(s[1..], sub, i);
        assert s[1..][i..i + |sub|] == s[i + 1..i + 1 + |sub|];
        assert OccursAt(s, sub, i + 1);
      }
      if exists i :: OccursAt(s, sub, i) {
        var i :| OccursAt(s, sub, i);
        assert i != 0;
        assert s[1..][i - 1..i - 1 + |sub|] == s[i..i + |sub|];
        assert OccursAt(s[1..], sub, i - 1);
      }
    }
  }

  /** Putting one character in front of `s` does not change whether a
      non-empty `sub` that starts with another character occurs in it. */
  lemma ContainsIgnoresLeadingChar(c: char, s: string, sub: string)
    requires |sub| > 0 && sub[0] != c
    ensures Contains([c] + s, sub) <==> Contains(s, sub)
  {
  }

  /** `strings.Split(s, string(sep))`: the pieces between occurrences of
      `sep`; always at least one piece, possibly empty. */
  function Split(s: string, sep: char): (pieces: seq<string>)
    ensures |pieces| >= 1
    ensures forall i :: 0 <= i < |pieces| ==> sep !in pieces[i]
    decreases |s|
  {
    if |s| == 0 then [""]
    else
      var rest := Split(s[1..], sep);
      if s[0] == sep then [""] + rest
      else [[s[0]] + rest[0]] + rest[1..]
  }

  /** `strings.Join(pieces, sep)`. */
  function Join(pieces: seq<string>, sep: string): string
  {
    if |pieces| == 0 then ""
    else if |pieces| == 1 then pieces[0]
    else pieces[0] + sep + Join(pieces[1..], sep)
  }

  /** Joining the pieces of a split with the separator gives back the input. */
  lemma {:induction false} JoinSplit(s: string, sep: char)
    ensures Join(Split(s, sep), [sep]) == s
    decreases |s|
  {
    if |s| > 0 {
      var rest := Split(s[1..], sep);
      JoinSplit(s[1..], sep);
      if s[0] == sep {
        assert Split(s, sep) == [""] + rest;
        assert ([""] + rest)[1..] == rest;
      } else {
        var pieces := [[s[0]] + rest[0]] + rest[1..];
        assert Split(s, sep) == pieces;
        if |rest| == 1 {
          assert Join(rest, [sep]) == rest[0];
        } else {
          assert pieces[1..] == rest[1..];
          assert Join(rest, [sep]) == rest[0] + [sep] + Join(rest[1..], [sep]);
        }
      }
    }
  }

  /** Splitting a join of separator-free pieces gives back the pieces. */
  lemma {:induction false} SplitJoin(pieces: seq<string>, sep: char)
    requires |pieces| >= 1
    requires forall i :: 0 <= i < |pieces| ==> sep !in pieces[i]
    ensures Split(Join(pieces, [sep]), sep) == pieces
    decreases pieces
  {
    if |pieces| == 1 {
      SplitNoSeparator(pieces[0], sep);
    } else {
      SplitJoin(pieces[1..], sep);
      SplitPrepend(pieces[0], Join(pieces[1..], [sep]), sep);
      assert [pieces[0]] + pieces[1..] == pieces;
    }
  }

  /** A string without the separator splits into itself. */
  lemma {:induction false} SplitNoSeparator(s: string, sep: char)
    requires sep !in s
    ensures Split(s, sep) == [s]
    decreases |s|
  {
    if |s| > 0 {
      SplitNoSeparator(s[1..], sep);
      assert [s[0]] + s[1..] == s;
    }
  }

  /** Splitting `p + sep + t` with `p` separator-free yields `p` followed by
      the pieces of `t`. */
  lemma {:induction false} SplitPrepend(p: string, t: string, sep: char)
    requires sep !in p
    ensures Split(p + [sep] + t, sep) == [p] + Split(t, sep)
    decreases |p|
  {
    var s := p + [sep] + t;
    if |p| == 0 {
      assert s[1..] == t;
    } else {
      assert s[1..] == p[1..] + [sep] + t;
      SplitPrepend(p[1..], t, sep);
      assert [p[0]] + p[1..] == p;
    }
  }

  /** A string that ends in the separator has an empty last piece. */
  lemma {:induction false} SplitTrailingSeparator(s: string, sep: char)
    requires |s| > 0 && s[|s| - 1] == sep
    ensures Split(s, sep)[|Split(s, sep)| - 1] == ""
    decreases |s|
  {
    if |s| == 1 {
      assert s[1..] == [];
    } else {
      assert s[1..][|s[1..]| - 1] == sep;
      SplitTrailingSeparator(s[1..], sep);
    }
  }
}

=== FILE: time_validate.dfy ===
/** The time-window validator: a query may only start, or be evaluated, at
    most two hours in the past. */
module TimeValidate {
  import opened Wrappers
  import opened Durations
  import opened Context

  /** How far back a query may reach. */
  const Lookback: int := 2 * Hour

  /** An optional instant that lies strictly before `now - Lookback`. */
  predicate TooOld(t: Option<int>, now: int) {
    t.Some? && t.value < now - Lookback
  }

  /** The validator, given the wall-clock instant `now`: the start time is
      checked before the evaluation timestamp; the end time is not read. */
  function ValidateTimeRange(ctx: RequestContext, now: int): (r: Outcome<ValidationError>)
    ensures r.Pass? <==> !TooOld(ctx.startTime, now) && !TooOld(ctx.timestamp, now)
    ensures r == Fail(StartTooOld) <==> TooOld(ctx.startTime, now)
    ensures r == Fail(TimestampTooOld) <==> !TooOld(ctx.startTime, now) && TooOld(ctx.timestamp, now)
  {
    var twoHoursAgo := now - Lookback;
    if ctx.startTime.Some? && ctx.startTime.value < twoHoursAgo then Fail(StartTooOld)
    else if ctx.timestamp.Some? && ctx.timestamp.value < twoHoursAgo then Fail(TimestampTooOld)
    else Pass
  }

  /** Instants exactly two hours old, or younger, or in the future, pass;
      so do absent ones. */
  lemma RecentInstantsPass(ctx: RequestContext, now: int)
    requires ctx.startTime.None? || ctx.startTime.value >= now - Lookback
    requires ctx.timestamp.None? || ctx.timestamp.value >= now - Lookback
    ensures ValidateTimeRange(ctx, now) == Pass
  {
  }

  /** The end time never influences the outcome. */
  lemma EndTimeIgnored(ctx: RequestContext, end: Option<int>, now: int)
    ensures ValidateTimeRange(ctx.(endTime := end), now) == ValidateTimeRange(ctx, now)
  {
  }

  /** A request that passes now also passed at any earlier instant: the
      window only moves forward. */
  lemma PassingStaysPassingEarlier(ctx: RequestContext, earlier: int, now: int)
    requires earlier <= now && ValidateTimeRange(ctx, now) == Pass
    ensures ValidateTimeRange(ctx, earlier) == Pass
  {
  }
}

=== FILE: wrappers.dfy ===
/** Plain sum types used throughout the model: an optional value, a
    pass/fail outcome and a value-or-error result. */
module Wrappers {

  /** A value that may be absent; stands in for Go's nil pointers and for
      library calls that return `(value, err)`. */
  datatype Option<+T> = None | Some(value: T)

  /** The result of a check that either passes or fails with a reason; stands
      in for a Go function returning only `error`. */
  datatype Outcome<+E> = Pass | Fail(error: E)

  /** A value or an error; stands in for a Go function returning `(T, error)`. */
  datatype Result<+T, +E> = Ok(value: T) | Err(error: E)
}
